=== FILE: README.md ===
# next-movie display helpers, modelled in Dafny

The movie catalog site renders one detail view per title. Almost all of that view is
declarative layout; the logic in it is a handful of pure display helpers. This project
models those helpers and proves what they promise:

- the approximate vote-count humanizer (`getApproxHumanizedNumVotes`), which cuts a count
  down to its leading digit at its decimal magnitude, groups it en-US style and marks a
  lossy cut with `+`;
- the Rotten Tomatoes critic tiers (empty, certified fresh, fresh, rotten) and audience
  tiers (empty, fresh, rotten), their icons, and the `- -` placeholder that replaces the
  score when the tier is the empty one;
- the genre vocabulary (`genreLabelMap`, `genres`), the label lookup that falls back to the
  raw slug, and the URL slug codec (`encodeGenre`, `decodeGenre`);
- the cast list, where every name but the last is followed by `,`.

Modules: `Wrappers` (Option), `Decimal` (`String(n)`, en-US `toLocaleString`, and reading
such text back), `Votes`, `RottenTomatoes`, `GenreVocabulary`, `Cast`, and `MovieView`,
which ties the helpers to the fields of a movie record the way the `Movie` component
does.

Two behaviours of the code are easy to misread:

- The humanizer keeps one leading digit, so 12,345 renders `10,000+`
  (`Votes.HumanizeVotesExamples`).
- A score is tested for truthiness, so a score of 0 gives the empty tier just as a
  missing score does, and a missing vote count compares as 0.

## Model

| member | source | states |
|---|---|---|
| Decimal.NumDigits | components/Movie/Movie.tsx:31 | the digit count d of n satisfies 10^(d-1) <= n < 10^d (n >= 1), computed with integers instead of `Math.log` |
| Decimal.NumDigitsUnique | components/Movie/Movie.tsx:31 | any d with 10^(d-1) <= n < 10^d is the digit count, so digit counts can be compared through bounds alone |
| Decimal.Pow10Monotone | components/Movie/Movie.tsx:32 | `Math.pow(10, k)` never decreases as k grows |
| Decimal.ToDecimal | components/Movie/Movie.tsx:250 | `String(n)` has exactly digits(n) characters, all decimal digits, with no leading zero |
| Decimal.ToDecimalValue | components/Movie/Movie.tsx:250 | reading the digits of `String(n)` back gives n |
| Decimal.IntText | components/Movie/Movie.tsx:250 | `String(i)` for a whole number below 10^21 in magnitude: it starts with `-` exactly when i is negative, and the rest is digits without a leading zero that read back as abs(i) |
| Decimal.Grouped | components/Movie/Movie.tsx:35 | en-US grouping is non-empty, made only of digits and `,`, starts and ends with a digit, and has no leading zero for n > 0 |
| Decimal.GroupedCommas | components/Movie/Movie.tsx:35 | the commas of the grouped text stand exactly at every fourth place from the right, so they split the digits into groups of three from the right |
| Decimal.LocaleText | components/Movie/Movie.tsx:35 | `toLocaleString()` of a whole number: `-` first exactly when i is negative, then digits and commas at every fourth place from the right, with no leading zero and ending in a digit, which read back as abs(i) once the commas are dropped |
| Decimal.GroupedValue | components/Movie/Movie.tsx:35 | dropping the `,` separators from the grouped text leaves digits that read back as the number |
| Decimal.DigitsValueAppend | components/Movie/Movie.tsx:35 | reading two digit strings side by side shifts the left one by the right one's length |
| Decimal.StripMarksAppend | components/Movie/Movie.tsx:35-39 | removing `,` and `+` from a concatenation removes them from each part |
| Votes.LeadingUnit | components/Movie/Movie.tsx:32 | `temp`, the place value of the leading digit: temp <= n < 10 * temp for n >= 1 |
| Votes.ApproxVotes | components/Movie/Movie.tsx:31-34 | the approximation never exceeds n, loses less than the leading unit, is a multiple of it, has a single leading digit 1..9 and as many digits as n |
| Votes.ApproxIsGreatestMultiple | components/Movie/Movie.tsx:32-34 | every multiple of the leading unit that does not exceed n is at most the approximation, so the approximation is the greatest one |
| Votes.ApproxExactIff | components/Movie/Movie.tsx:33-34 | the approximation equals n exactly when every digit below the leading one is zero |
| Votes.HumanizeVotes | components/Movie/Movie.tsx:26-42 | the text is empty exactly for `null` and 0; otherwise it ends in `+` exactly when the count exceeds its approximation, and it never starts with `-` |
| Votes.HumanizeVotesReadsBack | components/Movie/Movie.tsx:35-39 | with `,` and `+` removed, the text reads back as the approximation, which is at most the count |
| Votes.HumanizeVotesExamples | components/Movie/Movie.tsx:26-42 | 12,345 renders `10,000+`; 3,000 renders `3,000` and 7 renders `7` with no `+`; `null` and 0 render as empty |
| Votes.ToInt32 | components/Movie/Movie.tsx:34 | `x \| 0` lands in [-2^31, 2^31), differs from x by a multiple of 2^32 and leaves int32 values unchanged |
| Votes.HumanizeVotesAsWritten | components/Movie/Movie.tsx:26-42 | the humanizer with the `\| 0` truncation kept: the text is empty exactly for `null` and 0, and otherwise ends in `+` exactly when the count exceeds the truncated approximation |
| Votes.AsWrittenAgreesBelowInt32 | components/Movie/Movie.tsx:34 | below 2^31 the truncation changes nothing: the as-written and corrected humanizers agree |
| Votes.AsWrittenWrapsAtThreeBillion | components/Movie/Movie.tsx:34 | for 3,000,000,000 the as-written humanizer renders `-1,294,967,296+`; the corrected one renders `3,000,000,000` |
| RottenTomatoes.CriticTierOf | components/Movie/Movie.tsx:53-66 | empty exactly when the rating is absent or 0 or there are at most 5 reviews; otherwise certified fresh at >= 90, fresh for 60..89, rotten below 60 |
| RottenTomatoes.AudienceTierOf | components/Movie/Movie.tsx:68-76 | empty exactly when the rating is absent or 0 or there are at most 50 ratings; otherwise fresh at >= 60, rotten below |
| RottenTomatoes.CriticImage | components/Movie/Movie.tsx:16-20 | each critic tier shows its own icon: empty, certified fresh, fresh and rotten each exactly for their tier |
| RottenTomatoes.AudienceImage | components/Movie/Movie.tsx:22-24 | each audience tier shows its own icon: empty, fresh and rotten each exactly for their tier |
| RottenTomatoes.PercentText | components/Movie/Movie.tsx:250 | `${rating}%` is the rating as `String` writes it followed by `%` |
| RottenTomatoes.CriticScoreText | components/Movie/Movie.tsx:248-250 | the critic value is `- -` exactly when the critic tier is empty, and otherwise the rating followed by `%` |
| RottenTomatoes.AudienceScoreText | components/Movie/Movie.tsx:279-281 | the audience value is `- -` exactly when the audience tier is empty, and otherwise the rating followed by `%` |
| RottenTomatoes.CriticTierMonotone | components/Movie/Movie.tsx:58-64 | with the same review count, a higher positive critic score never shows a less fresh tier |
| RottenTomatoes.CriticTierMoreVotes | components/Movie/Movie.tsx:57 | more reviews never empty a critic tier and never change a non-empty one |
| RottenTomatoes.AudienceTierMonotone | components/Movie/Movie.tsx:70-74 | with the same rating count, a higher positive audience score never shows a less fresh tier |
| RottenTomatoes.FreshThresholdAgrees | components/Movie/Movie.tsx:60-70 | for one score given to both selectors: when both vote thresholds pass, the critic tier is fresh or certified fresh exactly when the audience tier is fresh (both switch at 60); the component itself feeds the two selectors different scores |
| RottenTomatoes.TierExamples | components/Movie/Movie.tsx:56-76 | 91 with 6 reviews is certified fresh, with 5 or no count it is empty; 59 with 6 is rotten; audience 60 with 51 is fresh, with 50 empty; an audience score of 0 shows `- -` |
| GenreVocabulary.TableMap | lib/genres.ts:1-30 | the object built from the entries holds exactly the declared keys, and when no key repeats each key maps to the label declared beside it |
| GenreVocabulary.TableKeys | lib/genres.ts:32 | `Object.keys` of the table lists the declared keys in declaration order |
| GenreVocabulary.TableKeysAreMapKeys | lib/genres.ts:1-32 | the key list holds exactly the map's keys, none twice, and the map has one entry per table row |
| GenreVocabulary.DistinctCard | lib/genres.ts:32 | a list without repeats has as many distinct elements as entries |
| GenreVocabulary.GenreTableWellFormed | lib/genres.ts:1-30 | the table declares 28 entries with no slug twice |
| GenreVocabulary.GenresAreTheKeys | lib/genres.ts:1-32 | `genres` lists exactly the keys of `genreLabelMap`, 28 of them, pairwise distinct |
| GenreVocabulary.GenreLabel | components/Movie/Movie.tsx:162 | a known slug shows its mapped label; an unknown slug shows itself |
| GenreVocabulary.GenreLabelOfListed | lib/genres.ts:1-30 | every listed slug shows the label declared beside it |
| GenreVocabulary.GenreChips | components/Movie/Movie.tsx:156-164 | one chip per genre of the movie, in order, each showing that genre's label |
| GenreVocabulary.LowerChar | lib/genres.ts:39 | an upper-case ASCII letter becomes its own lower-case letter (code point + 32); every other character is unchanged |
| GenreVocabulary.ReplaceAll | lib/genres.ts:35 | a global single-character replace keeps the length and changes exactly the matching characters |
| GenreVocabulary.LowerAscii | lib/genres.ts:39 | `toLowerCase` keeps the length and lowers each character on its own |
| GenreVocabulary.TrimStartIndex | lib/genres.ts:39 | the kept part starts at the first character that is not trimmable; everything before it is trimmable |
| GenreVocabulary.TrimEndIndex | lib/genres.ts:39 | the kept part ends just after the last character that is not trimmable; everything after it is trimmable |
| GenreVocabulary.Trim | lib/genres.ts:39 | `trim` returns the contiguous part of the input between those two points: only trimmable characters are cut, neither end of the result is trimmable, and an unpadded string comes back unchanged |
| GenreVocabulary.TrimKeepsCharacters | lib/genres.ts:39 | every character of the trimmed text occurs in the input |
| GenreVocabulary.EncodeGenre | lib/genres.ts:34-36 | `encodeGenre` keeps the length, turns each space into `-`, leaves every other character alone and leaves no space |
| GenreVocabulary.DecodeGenre | lib/genres.ts:38-40 | `decodeGenre` output has no `-`, no upper-case ASCII letter and no trimmable character at either end, and is no longer than its input |
| GenreVocabulary.DecodeFixedPoints | lib/genres.ts:38-40 | decoding leaves a string unchanged exactly when it already has the decoded form |
| GenreVocabulary.DecodeIdempotent | lib/genres.ts:38-40 | decoding a decoded string returns it unchanged |
| GenreVocabulary.DecodeAfterEncode | lib/genres.ts:34-40 | decoding an encoded string gives the same result as decoding the original |
| GenreVocabulary.GenreRoundTrip | lib/genres.ts:1-40 | every key of `genreLabelMap`, `stand up` and `tv movie` included, comes back unchanged from `decodeGenre(encodeGenre(g))` |
| GenreVocabulary.VocabularyIsDecoded | lib/genres.ts:1-30 | every slug is lower case, has no `-` and no padding |
| Cast.CastEntries | components/Movie/Movie.tsx:180-184 | one entry per name, in order; every entry but the last is the name followed by `,`; the last is the bare name |
| Cast.CastSection | components/Movie/Movie.tsx:175-188 | the cast block is absent exactly when the list is missing or empty; when present it is the comma-marked entries of the list |
| Cast.CastEntriesJoin | components/Movie/Movie.tsx:180-184 | the entries read in order spell the names joined by `,` |
| MovieView.Render | components/Movie/Movie.tsx:44-76 | the view shows one label per genre, the cast block, each Rotten Tomatoes icon and score as its tier selects, `- -` exactly where the icon is the empty one, and the humanized IMDb and audience vote counts |

## Left out

- JSX layout, `next/image`, `Link`, `ActiveLink`, `YouTubeButton`, CSS classes and the
  commented-out blocks (components/Movie/Movie.tsx:78-304): declarative UI around the
  modelled values.
- The `rtUrl` gate around both Rotten Tomatoes slots, the `imdbRating !== null` gate, and
  the IMDb and audience vote-detail lines (components/Movie/Movie.tsx:202, 229-233, 238,
  269, 291-295): JSX conditionals that show or hide values the model computes.
- The critic review-count line (components/Movie/Movie.tsx:260-264): it prints the raw
  `movie.rtCriticVotes`, which the model does not render. Being written
  `movie.rtCriticVotes && (…)`, it makes React print a bare `0` for a count of 0 rather
  than hide the line; JSX rendering is outside this model.
- `ms(movie.runtime * 60 * 1000)` (components/Movie/Movie.tsx:135): a call into the
  `pretty-ms` library, which is not part of this model.
- `imdbRating.toFixed(1)` (components/Movie/Movie.tsx:208): floating-point formatting.
- `toLocaleString` is modelled for the en-US locale only; other locales group differently.
- Decimal.IntText: `String` switches to exponent notation from 10^21; the model writes
  every digit. The ratings it prints run from 0 to 100.
- RottenTomatoes.CriticTierOf: ratings are modelled as whole numbers (`Option<int>`). The
  source types them as JavaScript numbers, so a fractional score is not modelled; the same
  holds for RottenTomatoes.AudienceTierOf.
- RottenTomatoes.PercentText: prints whole ratings only; a fractional score such as 87.5,
  which `${rating}%` would show as `87.5%`, is not modelled.
- MovieView.Render: renders the vote counts with the corrected humanizer
  (`Votes.HumanizeVotes`), not the as-written one the component calls. The two differ only
  from 2^31 votes up (`Votes.AsWrittenAgreesBelowInt32`); see "## Findings".
- Votes.HumanizeVotes: takes `Option<nat>`; negative or fractional counts are not
  modelled, because vote counts are whole and non-negative and `Math.log` of a negative
  number is NaN.
- Votes.HumanizeVotes: counts the digits with integers instead of
  `Math.log(n) * Math.LOG10E`. At exact powers of ten the floating-point count can come
  out one short, but the truncated value is the same number, so the text agrees. Counts
  above 2^53, where doubles lose whole numbers, are not modelled.
- Votes.HumanizeVotesAsWritten: models the `| 0` on the product only. The `| 0` on the
  digit count never matters for counts below 2^53.
- GenreVocabulary.DecodeGenre: `toLowerCase` is modelled on ASCII letters only. Unicode
  case mapping, including mappings that change the length, is left out. `trim` uses the
  full ECMAScript white-space and line-terminator set.
- GenreVocabulary.DecodeGenre: the `genre?.` null guard is not modelled. The parameter
  is typed `string`, so the guard never fires for a well-typed caller.
- GenreVocabulary.GenreLabel: `genreLabelMap[genre]` also finds properties inherited from
  `Object.prototype` (for example `constructor`); the model treats the map as holding only
  its declared keys.
- GenreVocabulary.TableMap: states the value of each key only for tables without
  repeated keys. Its body keeps the later value, as a JavaScript object literal does, but
  the contract does not say so; the genre table has no repeats (`GenreTableWellFormed`).
- app/layout.tsx, lib/hooks/use-theme.ts, the page controller and the social-image
  handler are not part of this model: layout scaffolding, a theme hook, data fetching and
  a call into an external rasterizer.

## Findings

| source | as written | input that shows it | evidently intended | confidence | as-written member | corrected member |
|---|---|---|---|---|---|---|
| components/Movie/Movie.tsx:34 | `const approx = (floor * temp) \| 0` truncates the approximation to a signed 32-bit integer | `numVotes = 3000000000`: approx becomes -1294967296, shown as `-1,294,967,296+` | the approximation stays the whole multiple 3,000,000,000 and is shown as `3,000,000,000` with no `+` | not executed | Votes.HumanizeVotesAsWritten, Votes.AsWrittenWrapsAtThreeBillion | Votes.HumanizeVotes |

=== FILE: cast.dfy ===
/**
 The cast list of the movie detail view: one entry per person, in order, each
 followed by ',' except the last, shown only when the list is non-empty.
 */
module Cast {
  import opened Wrappers

  /** The text of each cast entry: the name, then ',' unless it is the last entry. */
  function CastEntries(cast: seq<string>): (entries: seq<string>)
    ensures |entries| == |cast|
    ensures forall i :: 0 <= i < |cast| - 1 ==> entries[i] == cast[i] + ","
    ensures |cast| > 0 ==> entries[|cast| - 1] == cast[|cast| - 1]
  {
    seq(|cast|, i requires 0 <= i < |cast| => cast[i] + (if i < |cast| - 1 then "," else ""))
  }

  /** `movie.cast?.length ? … : null`: the cast block exists only for a non-empty list. */
  function CastSection(cast: Option<seq<string>>): (section: Option<seq<string>>)
    ensures section.None? <==> cast.None? || |cast.value| == 0
    ensures section.Some? ==> |section.value| == |cast.value| > 0
    ensures section.Some? ==> section.value[|section.value| - 1] == cast.value[|cast.value| - 1]
    ensures section.Some? ==> section.value == CastEntries(cast.value)
  {
    match cast
    case None => None
    case Some(names) => if |names| == 0 then None else Some(CastEntries(names))
  }

  /** The entries laid side by side. */
  function Concat(parts: seq<string>): string {
    if |parts| == 0 then "" else parts[0] + Concat(parts[1..])
  }

  /** The names joined with a separator between neighbours (`names.join(sep)`). */
  function JoinWith(names: seq<string>, sep: string): string {
    if |names| == 0 then ""
    else if |names| == 1 then names[0]
    else names[0] + sep + JoinWith(names[1..], sep)
  }

  /** Read in order, the cast entries spell the names joined by ','. */
  lemma {:induction false} CastEntriesJoin(cast: seq<string>)
    ensures Concat(CastEntries(cast)) == JoinWith(cast, ",")
    decreases |cast|
  {
    var e := CastEntries(cast);
    if |cast| == 1 {
      assert e[1..] == [];
    } else if |cast| >= 2 {
      assert e[1..] == CastEntries(cast[1..]);
      CastEntriesJoin(cast[1..]);
    }
  }
}

=== FILE: decimal.dfy ===
/**
 Decimal rendering of integers, as JavaScript produces it for whole numbers:
 `String(n)` (plain digits, a leading '-' for negatives) and the en-US
 `toLocaleString()` (digits grouped by three with ','). Also the parse-back
 that reads such a text as a number again, ignoring ',' and '+'.
 */
module Decimal {

  /** 10^k. */
  function Pow10(k: nat): (r: nat)
    ensures r >= 1
  {
    if k == 0 then 1 else 10 * Pow10(k - 1)
  }

  lemma {:induction false} Pow10Monotone(i: nat, j: nat)
    requires i <= j
    ensures Pow10(i) <= Pow10(j)
    decreases j
  {
    if i < j {
      Pow10Monotone(i, j - 1);
    }
  }

  /** Number of decimal digits of n (1 for 0). */
  function NumDigits(n: nat): (d: nat)
    ensures d >= 1
    ensures n < Pow10(d)
    ensures n >= 1 ==> Pow10(d - 1) <= n
  {
    if n < 10 then 1 else 1 + NumDigits(n / 10)
  }

  /** The digit count is the unique d with 10^(d-1) <= n < 10^d. */
  lemma NumDigitsUnique(n: nat, d: nat)
    requires d >= 1
    requires Pow10(d - 1) <= n < Pow10(d)
    ensures NumDigits(n) == d
  {
    var e := NumDigits(n);
    if e < d {
      Pow10Monotone(e, d - 1);
    } else if e > d {
      Pow10Monotone(d, e - 1);
    }
  }

  predicate IsDigit(c: char) {
    '0' <= c <= '9'
  }

  function DigitChar(k: nat): (c: char)
    requires k < 10
    ensures IsDigit(c)
  {
    ('0' as int + k) as char
  }

  function DigitValue(c: char): (k: nat)
    requires IsDigit(c)
    ensures k < 10
  {
    c as int - '0' as int
  }

  /** Value of a string of digits, most significant first ("" reads as 0). */
  function DigitsValue(s: string): nat
    requires forall i :: 0 <= i < |s| ==> IsDigit(s[i])
  {
    if |s| == 0 then 0 else 10 * DigitsValue(s[..|s| - 1]) + DigitValue(s[|s| - 1])
  }

  /** Reading a concatenation of digit strings: the left part is shifted by the right part's length. */
  lemma {:induction false} DigitsValueAppend(a: string, b: string)
    requires forall i :: 0 <= i < |a| ==> IsDigit(a[i])
    requires forall i :: 0 <= i < |b| ==> IsDigit(b[i])
    ensures forall i :: 0 <= i < |a + b| ==> IsDigit((a + b)[i])
    ensures DigitsValue(a + b) == DigitsValue(a) * Pow10(|b|) + DigitsValue(b)
    decreases |b|
  {
    if |b| > 0 {
      var b' := b[..|b| - 1];
      assert (a + b)[..|a + b| - 1] == a + b';
      DigitsValueAppend(a, b');
      var x, y, p, c := DigitsValue(a), DigitsValue(b'), Pow10(|b'|), DigitValue(b[|b| - 1]);
      assert DigitsValue(a + b) == 10 * (x * p + y) + c;
      assert DigitsValue(b) == 10 * y + c;
      assert Pow10(|b|) == 10 * p;
      MulShift(x, p, y, c);
    } else {
      assert a + b == a;
    }
  }

  lemma MulShift(x: int, p: int, y: int, c: int)
    ensures 10 * (x * p + y) + c == x * (10 * p) + (10 * y + c)
  {
  }

  /** Plain decimal digits of n, without leading zeros; `String(n)` for n >= 0. */
  function ToDecimal(n: nat): (s: string)
    ensures |s| == NumDigits(n)
    ensures forall i :: 0 <= i < |s| ==> IsDigit(s[i])
    ensures n > 0 ==> s[0] != '0'
  {
    if n < 10 then [DigitChar(n)] else ToDecimal(n / 10) + [DigitChar(n % 10)]
  }

  /** Parsing the digits of n gives n back. */
  lemma {:induction false} ToDecimalValue(n: nat)
    ensures DigitsValue(ToDecimal(n)) == n
  {
    if n >= 10 {
      var s := ToDecimal(n);
      assert s[..|s| - 1] == ToDecimal(n / 10);
      ToDecimalValue(n / 10);
    }
  }

  /**
   `String(i)` for a whole number i: a '-' exactly when i is negative, then the
   digits of |i| without leading zeros, which read back as |i|.
   */
  function IntText(i: int): (s: string)
    ensures |s| >= 1
    ensures s[0] == '-' <==> i < 0
    ensures var d := if i < 0 then s[1..] else s;
      && |d| >= 1
      && (forall k :: 0 <= k < |d| ==> IsDigit(d[k]))
      && (|d| == 1 || d[0] != '0')
      && DigitsValue(d) == (if i < 0 then -i else i)
  {
    var m: nat := if i < 0 then -i else i;
    ToDecimalValue(m);
    var s := if i < 0 then "-" + ToDecimal(m) else ToDecimal(m);
    assert i < 0 ==> s[1..] == ToDecimal(m);
    s
  }

  /** Exactly three digits of k, zero padded: one inner group of a grouped number. */
  function Pad3(k: nat): (s: string)
    requires k < 1000
    ensures |s| == 3
    ensures forall i :: 0 <= i < |s| ==> IsDigit(s[i])
  {
    [DigitChar(k / 100), DigitChar(k / 10 % 10), DigitChar(k % 10)]
  }

  lemma Pad3Value(k: nat)
    requires k < 1000
    ensures DigitsValue(Pad3(k)) == k
  {
    var s := Pad3(k);
    assert s[..2][..1] == [s[0]];
    assert DigitsValue(s[..2][..1]) == k / 100;
    assert s[..2] == [s[0], s[1]];
  }

  /** en-US digit grouping of n: groups of three digits separated by ','. */
  function Grouped(n: nat): (s: string)
    ensures |s| >= 1
    ensures IsDigit(s[0]) && IsDigit(s[|s| - 1])
    ensures forall i :: 0 <= i < |s| ==> IsDigit(s[i]) || s[i] == ','
    ensures n > 0 ==> s[0] != '0'
  {
    if n < 1000 then ToDecimal(n) else Grouped(n / 1000) + "," + Pad3(n % 1000)
  }

  /** Every ',' of s, and only those, stands a multiple of four places from the end. */
  predicate CommasEveryThree(s: string) {
    forall k :: 0 <= k < |s| ==> (s[k] == ',' <==> (|s| - k) % 4 == 0)
  }

  /** The commas of a grouped number separate groups of three digits, counted from the right. */
  lemma {:induction false} GroupedCommas(n: nat)
    ensures CommasEveryThree(Grouped(n))
  {
    if n < 1000 {
      if n >= 10 {
        assert NumDigits(n) == 1 + NumDigits(n / 10);
        assert NumDigits(n / 10) <= 2;
      }
    } else {
      GroupedCommas(n / 1000);
      CommasJoin(Grouped(n / 1000), Pad3(n % 1000));
    }
  }

  lemma CommasJoin(hi: string, lo: string)
    requires CommasEveryThree(hi)
    requires |lo| == 3 && forall k :: 0 <= k < 3 ==> IsDigit(lo[k])
    ensures CommasEveryThree(hi + "," + lo)
  {
    var s := hi + "," + lo;
    forall k | 0 <= k < |s|
      ensures s[k] == ',' <==> (|s| - k) % 4 == 0
    {
      if k < |hi| {
        assert s[k] == hi[k];
        assert (|s| - k) % 4 == (|hi| - k) % 4;
      } else if k > |hi| {
        assert s[k] == lo[k - |hi| - 1];
      }
    }
  }

  /**
   `n.toLocaleString()` in the en-US locale, for a whole number: a '-' exactly
   when i is negative, then digits grouped by three with ',', which read back
   as |i| once the separators are dropped.
   */
  function LocaleText(i: int): (s: string)
    ensures |s| >= 1
    ensures IsDigit(s[|s| - 1])
    ensures s[0] == '-' <==> i < 0
    ensures var g := if i < 0 then s[1..] else s;
      && |g| >= 1 && IsDigit(g[0])
      && (|g| == 1 || g[0] != '0')
      && (forall k :: 0 <= k < |g| ==> IsDigit(g[k]) || g[k] == ',')
      && CommasEveryThree(g)
    ensures var d := StripMarks(if i < 0 then s[1..] else s);
      (forall k :: 0 <= k < |d| ==> IsDigit(d[k])) && DigitsValue(d) == (if i < 0 then -i else i)
  {
    var m: nat := if i < 0 then -i else i;
    GroupedValue(m);
    GroupedCommas(m);
    var s := if i < 0 then "-" + Grouped(m) else Grouped(m);
    assert i < 0 ==> s[1..] == Grouped(m);
    s
  }

  /** Drops the approximation mark '+' and the group separator ','. */
  function StripMarks(s: string): (r: string)
    ensures forall i :: 0 <= i < |r| ==> r[i] != ',' && r[i] != '+'
    ensures |r| <= |s|
  {
    if |s| == 0 then ""
    else (if s[0] == ',' || s[0] == '+' then "" else [s[0]]) + StripMarks(s[1..])
  }

  lemma {:induction false} StripMarksAppend(a: string, b: string)
    ensures StripMarks(a + b) == StripMarks(a) + StripMarks(b)
    decreases |a|
  {
    if |a| == 0 {
      assert a + b == b;
    } else {
      assert (a + b)[1..] == a[1..] + b;
      StripMarksAppend(a[1..], b);
    }
  }

  lemma {:induction false} StripMarksDigits(s: string)
    requires forall i :: 0 <= i < |s| ==> IsDigit(s[i])
    ensures StripMarks(s) == s
    decreases |s|
  {
    if |s| > 0 {
      StripMarksDigits(s[1..]);
    }
  }

  /** Reading a grouped number back, ignoring the separators, gives the number. */
  lemma {:induction false} GroupedValue(n: nat)
    ensures var d := StripMarks(Grouped(n));
      (forall i :: 0 <= i < |d| ==> IsDigit(d[i])) && DigitsValue(d) == n
  {
    if n < 1000 {
      StripMarksDigits(ToDecimal(n));
      ToDecimalValue(n);
    } else {
      var hi := Grouped(n / 1000);
      var lo := Pad3(n % 1000);
      GroupedValue(n / 1000);
      assert Grouped(n) == hi + "," + lo;
      StripGroup(hi, lo);
      DigitsValueAppend(StripMarks(hi), lo);
      Pad3Value(n % 1000);
    }
  }

  /** Stripping a joined group drops its ',' and keeps its three digits. */
  lemma StripGroup(hi: string, lo: string)
    requires forall i :: 0 <= i < |lo| ==> IsDigit(lo[i])
    ensures StripMarks(hi + "," + lo) == StripMarks(hi) + lo
  {
    assert hi + "," + lo == hi + ("," + lo);
    StripMarksAppend(hi, "," + lo);
    StripComma(lo);
  }

  lemma StripComma(lo: string)
    requires forall i :: 0 <= i < |lo| ==> IsDigit(lo[i])
    ensures StripMarks("," + lo) == lo
  {
    StripMarksAppend(",", lo);
    StripMarksDigits(lo);
  }
}

=== FILE: genres.dfy ===
/**
 The genre vocabulary of the catalog: the fixed slug-to-label table, the slug
 list taken from it, the label lookup used when rendering genre chips, and the
 slug codec that writes spaces as '-' in URLs and reads them back.

 `toLowerCase` is modelled on ASCII letters only; `trim` removes exactly the
 ECMAScript white-space and line-terminator characters.
 */
module GenreVocabulary {

  /** The slug/label entries, in the order the table declares them. */
  const GenreTable: seq<(string, string)> := [
    ("action", "Action"), ("adventure", "Adventure"), ("animation", "Animation"),
    ("biography", "Biography"), ("comedy", "Comedy"), ("crime", "Crime"),
    ("documentary", "Documentary"), ("drama", "Drama"), ("family", "Family"),
    ("fantasy", "Fantasy"), ("filmnoir", "Film Noir"), ("gameshow", "Game Show"),
    ("history", "History"), ("horror", "Horror"), ("music", "Music"),
    ("musical", "Musical"), ("mystery", "Mystery"), ("news", "News"),
    ("realitytv", "Reality TV"), ("romance", "Romance"), ("scifi", "Science Fiction"),
    ("sport", "Sports"), ("stand up", "Stand Up"), ("talkshow", "Talk Show"),
    ("thriller", "Thriller"), ("tv movie", "TV Movie"), ("war", "War"),
    ("western", "Western")
  ]

  /** No key appears twice in a slug/label table. */
  predicate KeysDistinct(t: seq<(string, string)>) {
    forall j, k :: 0 <= j < k < |t| ==> t[j].0 != t[k].0
  }

  /** `Object.keys` of a table: its keys in declaration order. */
  function TableKeys(t: seq<(string, string)>): (keys: seq<string>)
    ensures |keys| == |t|
    ensures forall i :: 0 <= i < |t| ==> keys[i] == t[i].0
  {
    seq(|t|, i requires 0 <= i < |t| => t[i].0)
  }

  /**
   The object an object literal with these entries builds: it holds exactly the
   listed keys, and when no key repeats, each key maps to the label beside it.
   (A repeated key would keep its last label.)
   */
  function TableMap(t: seq<(string, string)>): (m: map<string, string>)
    ensures forall k :: k in m <==> k in TableKeys(t)
    ensures KeysDistinct(t) ==> forall i :: 0 <= i < |t| ==> m[t[i].0] == t[i].1
  {
    if |t| == 0 then map[]
    else
      var t', last := t[..|t| - 1], t[|t| - 1];
      var m := TableMap(t')[last.0 := last.1];
      assert TableKeys(t) == TableKeys(t') + [last.0];
      assert KeysDistinct(t) ==> KeysDistinct(t') by {
        assert forall i :: 0 <= i < |t'| ==> t'[i] == t[i];
      }
      assert KeysDistinct(t) ==> forall i :: 0 <= i < |t| ==> m[t[i].0] == t[i].1 by {
        if KeysDistinct(t) {
          forall i | 0 <= i < |t| ensures m[t[i].0] == t[i].1 {
            if i < |t'| {
              assert t[i] == t'[i];
              assert t[i].0 != last.0;
            }
          }
        }
      }
      m
  }

  /** The key list of a table holds exactly the keys of its map, each once when the keys are distinct. */
  lemma TableKeysAreMapKeys(t: seq<(string, string)>)
    requires KeysDistinct(t)
    ensures forall g :: g in TableKeys(t) <==> g in TableMap(t)
    ensures forall i, j :: 0 <= i < j < |t| ==> TableKeys(t)[i] != TableKeys(t)[j]
    ensures |TableMap(t)| == |t|
  {
    var keys, m := TableKeys(t), TableMap(t);
    DistinctCard(keys);
    assert (set g | g in keys) == m.Keys;
  }

  /** A sequence without repeats has as many distinct elements as entries. */
  lemma {:induction false} DistinctCard(s: seq<string>)
    requires forall i, j :: 0 <= i < j < |s| ==> s[i] != s[j]
    ensures |set x | x in s| == |s|
  {
    if |s| > 0 {
      var s' := s[..|s| - 1];
      DistinctCard(s');
      assert (set x | x in s) == (set x | x in s') + {s[|s| - 1]};
      assert s[|s| - 1] !in s';
    } else {
      assert (set x | x in s) == {};
    }
  }

  /** The table declares 28 entries and no slug twice. */
  lemma GenreTableWellFormed()
    ensures |GenreTable| == 28
    ensures KeysDistinct(GenreTable)
  {
  }

  /** `genreLabelMap`. */
  const GenreLabelMap: map<string, string> := TableMap(GenreTable)

  /** `genres = Object.keys(genreLabelMap)`: the slugs in declaration order. */
  const Genres: seq<string> := TableKeys(GenreTable)

  /** `genres` lists exactly the keys of `genreLabelMap`: 28 of them, none twice. */
  lemma GenresAreTheKeys()
    ensures |Genres| == 28 && |GenreLabelMap| == 28
    ensures forall g :: g in Genres <==> g in GenreLabelMap
    ensures forall i, j :: 0 <= i < j < |Genres| ==> Genres[i] != Genres[j]
  {
    GenreTableWellFormed();
    TableKeysAreMapKeys(GenreTable);
  }

  /** `genreLabelMap[genre] ?? genre`: the label of a known slug, else the slug itself. */
  function GenreLabel(slug: string): (shown: string)
    ensures slug in GenreLabelMap ==> shown == GenreLabelMap[slug]
    ensures slug !in GenreLabelMap ==> shown == slug
  {
    if slug in GenreLabelMap then GenreLabelMap[slug] else slug
  }

  /** Every listed slug shows the label declared beside it. */
  lemma GenreLabelOfListed(i: nat)
    requires i < |Genres|
    ensures GenreLabel(Genres[i]) == GenreTable[i].1
  {
    GenreTableWellFormed();
  }

  /** The genre chips of a movie: one label per slug, in the movie's order. */
  function GenreChips(slugs: seq<string>): (labels: seq<string>)
    ensures |labels| == |slugs|
    ensures forall i :: 0 <= i < |slugs| ==> labels[i] == GenreLabel(slugs[i])
  {
    seq(|slugs|, i requires 0 <= i < |slugs| => GenreLabel(slugs[i]))
  }

  // ---------------------------------------------------------------- characters

  predicate IsAsciiUpper(c: char) {
    'A' <= c <= 'Z'
  }

  /** The characters `String.prototype.trim` removes: white space and line terminators. */
  predicate IsTrimmable(c: char) {
    var k := c as int;
    k == 0x09 || k == 0x0A || k == 0x0B || k == 0x0C || k == 0x0D || k == 0x20
    || k == 0xA0 || k == 0x1680 || (0x2000 <= k <= 0x200A) || k == 0x2028 || k == 0x2029
    || k == 0x202F || k == 0x205F || k == 0x3000 || k == 0xFEFF
  }

  function LowerChar(c: char): (d: char)
    ensures !IsAsciiUpper(d)
    ensures !IsAsciiUpper(c) ==> d == c
    ensures IsAsciiUpper(c) ==> d as int == c as int + 32
  {
    if IsAsciiUpper(c) then (c as int - 'A' as int + 'a' as int) as char else c
  }

  // ---------------------------------------------------------------- strings

  /** `s.replace(/x/g, y)` for a single-character pattern x. */
  function ReplaceAll(s: string, x: char, y: char): (r: string)
    ensures |r| == |s|
    ensures forall i :: 0 <= i < |s| ==> r[i] == (if s[i] == x then y else s[i])
  {
    seq(|s|, i requires 0 <= i < |s| => if s[i] == x then y else s[i])
  }

  /** `toLowerCase`, on ASCII letters. */
  function LowerAscii(s: string): (r: string)
    ensures |r| == |s|
    ensures forall i :: 0 <= i < |s| ==> r[i] == LowerChar(s[i])
  {
    seq(|s|, i requires 0 <= i < |s| => LowerChar(s[i]))
  }

  /** Neither end of s is a trimmable character. */
  predicate NotPadded(s: string) {
    |s| > 0 ==> !IsTrimmable(s[0]) && !IsTrimmable(s[|s| - 1])
  }

  /** Where the kept part starts: the first index from i on that is not trimmable, or |s|. */
  function TrimStartIndex(s: string, i: nat): (lo: nat)
    requires i <= |s|
    ensures i <= lo <= |s|
    ensures forall k :: i <= k < lo ==> IsTrimmable(s[k])
    ensures lo < |s| ==> !IsTrimmable(s[lo])
    decreases |s| - i
  {
    if i < |s| && IsTrimmable(s[i]) then TrimStartIndex(s, i + 1) else i
  }

  /** Where the kept part ends: the last index down to lo whose predecessor is not trimmable, or lo. */
  function TrimEndIndex(s: string, lo: nat, j: nat): (hi: nat)
    requires lo <= j <= |s|
    ensures lo <= hi <= j
    ensures forall k :: hi <= k < j ==> IsTrimmable(s[k])
    ensures hi > lo ==> !IsTrimmable(s[hi - 1])
    decreases j
  {
    if j > lo && IsTrimmable(s[j - 1]) then TrimEndIndex(s, lo, j - 1) else j
  }

  /** `trim`: s with its trimmable characters removed from both ends, and only those. */
  function Trim(s: string): (r: string)
    ensures NotPadded(r)
    ensures NotPadded(s) ==> r == s
    ensures var lo := TrimStartIndex(s, 0); var hi := TrimEndIndex(s, lo, |s|);
      && r == s[lo..hi]
      && (forall k :: 0 <= k < lo ==> IsTrimmable(s[k]))
      && (forall k :: hi <= k < |s| ==> IsTrimmable(s[k]))
  {
    var lo := TrimStartIndex(s, 0);
    var hi := TrimEndIndex(s, lo, |s|);
    assert forall k :: hi <= k < |s| ==> IsTrimmable(s[k]);
    s[lo..hi]
  }

  lemma TrimKeepsCharacters(s: string)
    ensures forall c :: c in Trim(s) ==> c in s
  {
    var r := Trim(s);
    var i := TrimStartIndex(s, 0);
    forall c | c in r ensures c in s {
      var k :| 0 <= k < |r| && r[k] == c;
      assert s[i + k] == c;
    }
  }

  // ---------------------------------------------------------------- codec

  /** `encodeGenre`: every space becomes '-'. */
  function EncodeGenre(genre: string): (r: string)
    ensures |r| == |genre|
    ensures forall i :: 0 <= i < |genre| ==> r[i] == (if genre[i] == ' ' then '-' else genre[i])
    ensures ' ' !in r
  {
    ReplaceAll(genre, ' ', '-')
  }

  /** A decoded genre: no '-', no upper-case ASCII letter, nothing trimmable at either end. */
  predicate IsDecoded(s: string) {
    && (forall i :: 0 <= i < |s| ==> s[i] != '-' && !IsAsciiUpper(s[i]))
    && NotPadded(s)
  }

  /** `decodeGenre`: '-' back to space, lower case, trimmed. */
  function DecodeGenre(genre: string): (r: string)
    ensures IsDecoded(r)
    ensures |r| <= |genre|
  {
    var r := Trim(LowerAscii(ReplaceAll(genre, '-', ' ')));
    TrimKeepsCharacters(LowerAscii(ReplaceAll(genre, '-', ' ')));
    assert forall i :: 0 <= i < |r| ==> r[i] in LowerAscii(ReplaceAll(genre, '-', ' '));
    r
  }

  /** The decoded strings are exactly the strings decoding leaves unchanged. */
  lemma DecodeFixedPoints(s: string)
    ensures DecodeGenre(s) == s <==> IsDecoded(s)
  {
    if IsDecoded(s) {
      assert ReplaceAll(s, '-', ' ') == s;
      assert LowerAscii(s) == s;
    }
  }

  /** Decoding is idempotent. */
  lemma DecodeIdempotent(s: string)
    ensures DecodeGenre(DecodeGenre(s)) == DecodeGenre(s)
  {
    DecodeFixedPoints(DecodeGenre(s));
  }

  /** Decoding reads an encoded string as it reads the original: spaces and '-' decode alike. */
  lemma DecodeAfterEncode(s: string)
    ensures DecodeGenre(EncodeGenre(s)) == DecodeGenre(s)
  {
    assert ReplaceAll(EncodeGenre(s), '-', ' ') == ReplaceAll(s, '-', ' ');
  }

  /** Every slug of the vocabulary survives the trip through a URL. */
  lemma GenreRoundTrip(g: string)
    requires g in GenreLabelMap
    ensures DecodeGenre(EncodeGenre(g)) == g
  {
    GenresAreTheKeys();
    VocabularyIsDecoded();
    var i :| 0 <= i < |Genres| && Genres[i] == g;
    DecodeAfterEncode(g);
    DecodeFixedPoints(g);
  }

  /**
   The slugs are already in decoded form, including "stand up" and "tv movie".
   The 28 slugs are checked seven at a time to keep each proof small.
   */
  lemma VocabularyIsDecoded()
    ensures forall i :: 0 <= i < |Genres| ==> IsDecoded(Genres[i])
  {
    SlugsDecodedA();
    SlugsDecodedB();
    SlugsDecodedC();
    SlugsDecodedD();
  }

  lemma SlugsDecodedA()
    ensures forall i :: 0 <= i < 7 ==> IsDecoded(Genres[i])
  {
    forall i | 0 <= i < 7 ensures IsDecoded(Genres[i]) {
      assert i == 0 || i == 1 || i == 2 || i == 3 || i == 4 || i == 5 || i == 6;
    }
  }

  lemma SlugsDecodedB()
    ensures forall i :: 7 <= i < 14 ==> IsDecoded(Genres[i])
  {
    forall i | 7 <= i < 14 ensures IsDecoded(Genres[i]) {
      assert i == 7 || i == 8 || i == 9 || i == 10 || i == 11 || i == 12 || i == 13;
    }
  }

  lemma SlugsDecodedC()
    ensures forall i :: 14 <= i < 21 ==> IsDecoded(Genres[i])
  {
    forall i | 14 <= i < 21 ensures IsDecoded(Genres[i]) {
      assert i == 14 || i == 15 || i == 16 || i == 17 || i == 18 || i == 19 || i == 20;
    }
  }

  lemma SlugsDecodedD()
    ensures forall i :: 21 <= i < 28 ==> IsDecoded(Genres[i])
  {
    forall i | 21 <= i < 28 ensures IsDecoded(Genres[i]) {
      assert i == 21 || i == 22 || i == 23 || i == 24 || i == 25 || i == 26 || i == 27;
    }
  }
}

=== FILE: movie.dfy ===
/**
 The fields of a catalog record that the detail view's helpers read, and the
 values the view derives from them before laying them out.
 */
module MovieView {
  import opened Wrappers
  import opened Votes
  import opened RottenTomatoes
  import opened GenreVocabulary
  import opened Cast

  datatype Movie = Movie(
    genres: seq<string>,
    cast: Option<seq<string>>,
    imdbVotes: Option<nat>,
    rtCriticRating: Option<int>,
    rtCriticVotes: Option<nat>,
    rtAudienceRating: Option<int>,
    rtAudienceVotes: Option<nat>
  )

  /** What the view shows for those fields. */
  datatype View = View(
    genreLabels: seq<string>,
    castEntries: Option<seq<string>>,
    imdbVotesText: string,
    criticImage: string,
    criticScore: string,
    audienceImage: string,
    audienceScore: string,
    audienceVotesText: string
  )

  /** The derived values of the `Movie` component, computed once per render. */
  function Render(movie: Movie): (v: View)
    ensures |v.genreLabels| == |movie.genres|
    ensures forall i :: 0 <= i < |movie.genres| ==> v.genreLabels[i] == GenreLabel(movie.genres[i])
    ensures v.castEntries == CastSection(movie.cast)
    ensures v.criticImage == CriticImage(CriticTierOf(movie.rtCriticRating, movie.rtCriticVotes))
    ensures v.audienceImage == AudienceImage(AudienceTierOf(movie.rtAudienceRating, movie.rtAudienceVotes))
    ensures v.criticScore == CriticScoreText(movie.rtCriticRating, movie.rtCriticVotes)
    ensures v.audienceScore == AudienceScoreText(movie.rtAudienceRating, movie.rtAudienceVotes)
    ensures v.imdbVotesText == HumanizeVotes(movie.imdbVotes)
    ensures v.audienceVotesText == HumanizeVotes(movie.rtAudienceVotes)
    ensures v.criticImage == CriticEmptyImage <==> v.criticScore == "- -"
    ensures v.audienceImage == AudienceEmptyImage <==> v.audienceScore == "- -"
    ensures v.audienceVotesText == "" <==> movie.rtAudienceVotes.None? || movie.rtAudienceVotes.value == 0
    ensures v.imdbVotesText == "" <==> movie.imdbVotes.None? || movie.imdbVotes.value == 0
  {
    var critic := CriticTierOf(movie.rtCriticRating, movie.rtCriticVotes);
    var audience := AudienceTierOf(movie.rtAudienceRating, movie.rtAudienceVotes);
    View(
      GenreChips(movie.genres),
      CastSection(movie.cast),
      HumanizeVotes(movie.imdbVotes),
      CriticImage(critic),
      CriticScoreText(movie.rtCriticRating, movie.rtCriticVotes),
      AudienceImage(audience),
      AudienceScoreText(movie.rtAudienceRating, movie.rtAudienceVotes),
      HumanizeVotes(movie.rtAudienceVotes)
    )
  }
}

=== FILE: tiers.dfy ===
/**
 Rotten Tomatoes critic and audience tiers of the movie detail view: which
 icon each score slot shows, and the "- -" placeholder that stands for a
 score when its tier is the empty one.

 A rating counts only when it is truthy (present and non-zero). A missing
 vote count compares like 0, so it never passes a vote threshold.
 */
module RottenTomatoes {
  import opened Wrappers
  import opened Decimal

  datatype CriticTier = CriticEmpty | CertifiedFresh | CriticFresh | CriticRotten
  datatype AudienceTier = AudienceEmpty | AudienceFresh | AudienceRotten

  /** `if (rating)`: present and non-zero. */
  predicate Truthy(rating: Option<int>) {
    rating.Some? && rating.value != 0
  }

  /** `votes! > k`, where a missing count compares as 0. */
  predicate VotesAbove(votes: Option<int>, k: int) {
    votes.GetOr(0) > k
  }

  const CriticEmptyImage: string := "/images/rt-critics-empty.svg"
  const CriticFreshImage: string := "/images/rt-critics-fresh.svg"
  const CriticCertifiedFreshImage: string := "/images/rt-critics-certified-fresh.svg"
  const CriticRottenImage: string := "/images/rt-critics-rotten.svg"

  const AudienceEmptyImage: string := "/images/rt-audience-empty.svg"
  const AudienceFreshImage: string := "/images/rt-audience-fresh.svg"
  const AudienceRottenImage: string := "/images/rt-audience-rotten.svg"

  /** The critic tier: needs a truthy rating and more than 5 reviews. */
  function CriticTierOf(rating: Option<int>, votes: Option<int>): (t: CriticTier)
    ensures t == CriticEmpty <==> !Truthy(rating) || !VotesAbove(votes, 5)
    ensures t == CertifiedFresh <==> Truthy(rating) && VotesAbove(votes, 5) && rating.value >= 90
    ensures t == CriticFresh <==> Truthy(rating) && VotesAbove(votes, 5) && 60 <= rating.value < 90
    ensures t == CriticRotten <==> Truthy(rating) && VotesAbove(votes, 5) && rating.value < 60
  {
    if Truthy(rating) then
      if VotesAbove(votes, 5) then
        if rating.value >= 90 then CertifiedFresh
        else if rating.value >= 60 then CriticFresh
        else CriticRotten
      else CriticEmpty
    else CriticEmpty
  }

  /** The audience tier: needs a truthy rating and more than 50 ratings. */
  function AudienceTierOf(rating: Option<int>, votes: Option<int>): (t: AudienceTier)
    ensures t == AudienceEmpty <==> !Truthy(rating) || !VotesAbove(votes, 50)
    ensures t == AudienceFresh <==> Truthy(rating) && VotesAbove(votes, 50) && rating.value >= 60
    ensures t == AudienceRotten <==> Truthy(rating) && VotesAbove(votes, 50) && rating.value < 60
  {
    if Truthy(rating) then
      if VotesAbove(votes, 50) then
        if rating.value >= 60 then AudienceFresh else AudienceRotten
      else AudienceEmpty
    else AudienceEmpty
  }

  /** The icon shown for a critic tier: each tier its own icon. */
  function CriticImage(t: CriticTier): (img: string)
    ensures img == CriticEmptyImage <==> t == CriticEmpty
    ensures img == CriticCertifiedFreshImage <==> t == CertifiedFresh
    ensures img == CriticFreshImage <==> t == CriticFresh
    ensures img == CriticRottenImage <==> t == CriticRotten
  {
    match t
    case CriticEmpty => CriticEmptyImage
    case CertifiedFresh => CriticCertifiedFreshImage
    case CriticFresh => CriticFreshImage
    case CriticRotten => CriticRottenImage
  }

  /** The icon shown for an audience tier: each tier its own icon. */
  function AudienceImage(t: AudienceTier): (img: string)
    ensures img == AudienceEmptyImage <==> t == AudienceEmpty
    ensures img == AudienceFreshImage <==> t == AudienceFresh
    ensures img == AudienceRottenImage <==> t == AudienceRotten
  {
    match t
    case AudienceEmpty => AudienceEmptyImage
    case AudienceFresh => AudienceFreshImage
    case AudienceRotten => AudienceRottenImage
  }

  /** `${rating}%`: the rating as `String` writes it, then '%'. */
  function PercentText(rating: int): (s: string)
    ensures |s| >= 2 && s[|s| - 1] == '%'
    ensures s[..|s| - 1] == IntText(rating)
  {
    IntText(rating) + "%"
  }

  /** The critic score value: "- -" when the icon is the empty one, else the rating and '%'. */
  function CriticScoreText(rating: Option<int>, votes: Option<int>): (s: string)
    ensures s == "- -" <==> CriticTierOf(rating, votes) == CriticEmpty
    ensures s != "- -" ==> rating.Some? && s == PercentText(rating.value)
  {
    if CriticImage(CriticTierOf(rating, votes)) == CriticEmptyImage then "- -"
    else PercentText(rating.value)
  }

  /** The audience score value: "- -" when the icon is the empty one, else the rating and '%'. */
  function AudienceScoreText(rating: Option<int>, votes: Option<int>): (s: string)
    ensures s == "- -" <==> AudienceTierOf(rating, votes) == AudienceEmpty
    ensures s != "- -" ==> rating.Some? && s == PercentText(rating.value)
  {
    if AudienceImage(AudienceTierOf(rating, votes)) == AudienceEmptyImage then "- -"
    else PercentText(rating.value)
  }

  /** Freshness order of the critic tiers, the empty tier lowest. */
  function CriticRank(t: CriticTier): nat {
    match t
    case CriticEmpty => 0
    case CriticRotten => 1
    case CriticFresh => 2
    case CertifiedFresh => 3
  }

  function AudienceRank(t: AudienceTier): nat {
    match t
    case AudienceEmpty => 0
    case AudienceRotten => 1
    case AudienceFresh => 2
  }

  /** A higher positive critic score never shows a less fresh icon, at the same review count. */
  lemma CriticTierMonotone(r1: int, r2: int, votes: Option<int>)
    requires 0 < r1 <= r2
    ensures CriticRank(CriticTierOf(Some(r1), votes)) <= CriticRank(CriticTierOf(Some(r2), votes))
  {
  }

  /** More reviews never empty a critic tier, and never change a non-empty one. */
  lemma CriticTierMoreVotes(rating: Option<int>, v1: int, v2: int)
    requires v1 <= v2
    ensures CriticTierOf(rating, Some(v1)) != CriticEmpty ==> CriticTierOf(rating, Some(v2)) == CriticTierOf(rating, Some(v1))
  {
  }

  lemma AudienceTierMonotone(r1: int, r2: int, votes: Option<int>)
    requires 0 < r1 <= r2
    ensures AudienceRank(AudienceTierOf(Some(r1), votes)) <= AudienceRank(AudienceTierOf(Some(r2), votes))
  {
  }

  /**
   Both selectors switch at the same 60: given one score and enough votes for
   both, the critic icon is fresh or certified fresh exactly when the audience
   icon is fresh. The component passes the critic and audience scores
   separately, so its two icons may still disagree.
   */
  lemma FreshThresholdAgrees(rating: Option<int>, criticVotes: Option<int>, audienceVotes: Option<int>)
    requires VotesAbove(criticVotes, 5) && VotesAbove(audienceVotes, 50)
    ensures CriticRank(CriticTierOf(rating, criticVotes)) >= 2 <==> AudienceTierOf(rating, audienceVotes) == AudienceFresh
  {
  }

  /** Boundary cases: both vote thresholds are strict, and a score of 0 counts as no score. */
  lemma TierExamples()
    ensures CriticTierOf(Some(91), Some(6)) == CertifiedFresh
    ensures CriticTierOf(Some(91), Some(5)) == CriticEmpty
    ensures CriticTierOf(Some(59), Some(6)) == CriticRotten
    ensures CriticTierOf(Some(91), None) == CriticEmpty
    ensures AudienceTierOf(Some(60), Some(51)) == AudienceFresh
    ensures AudienceTierOf(Some(60), Some(50)) == AudienceEmpty
    ensures AudienceScoreText(Some(0), Some(1000)) == "- -"
  {
  }
}

=== FILE: votes.dfy ===
/**
 The approximate vote-count humanizer of the movie detail view
 (`getApproxHumanizedNumVotes`): a positive count is cut down to its leading
 digit at its decimal magnitude, rendered with en-US grouping, and marked with
 a trailing '+' when the cut lost anything. `null` and 0 render as "".
 */
module Votes {
  import opened Wrappers
  import opened Decimal

  /** The place value of n's leading digit, 10^(digits(n)-1). */
  function LeadingUnit(n: nat): (u: nat)
    ensures u >= 1
    ensures n >= 1 ==> u <= n < 10 * u
  {
    Pow10(NumDigits(n) - 1)
  }

  lemma MulLe(i: nat, j: nat, u: nat)
    requires i <= j
    ensures i * u <= j * u
  {
  }

  lemma MulSucc(i: nat, u: nat)
    ensures (i + 1) * u == i * u + u
  {
  }

  /** Euclidean division has one quotient and remainder. */
  lemma DivModUnique(x: nat, u: nat, q: nat, r: nat)
    requires u >= 1 && r < u && x == q * u + r
    ensures x / u == q && x % u == r
  {
    var q', r' := x / u, x % u;
    assert x == q' * u + r';
    if q' < q {
      MulLe(q' + 1, q, u);
      MulSucc(q', u);
      assert false;
    } else if q' > q {
      MulLe(q + 1, q', u);
      MulSucc(q, u);
      assert false;
    }
  }

  /** Truncating n down to a multiple of u loses less than u. */
  lemma TruncateFacts(n: nat, u: nat)
    requires u >= 1
    ensures (n / u) * u <= n
    ensures n - (n / u) * u < u
    ensures ((n / u) * u) % u == 0
    ensures ((n / u) * u) / u == n / u
  {
    var q := n / u;
    assert n == q * u + n % u;
    DivModUnique(q * u, u, q, 0);
  }

  /** Every multiple of u that does not exceed n is at most n truncated to a multiple of u. */
  lemma TruncateIsGreatest(n: nat, u: nat, m: nat)
    requires u >= 1 && m <= n && m % u == 0
    ensures m <= (n / u) * u
  {
    var k, q := m / u, n / u;
    assert m == k * u + m % u;
    assert n == q * u + n % u;
    if k > q {
      MulLe(q + 1, k, u);
      MulSucc(q, u);
      assert false;
    }
    MulLe(k, q, u);
  }

  /** n truncated to its leading digit at its magnitude (12,345 becomes 10,000). */
  function ApproxVotes(n: nat): (a: nat)
    ensures a <= n
    ensures n - a < LeadingUnit(n)
    ensures a % LeadingUnit(n) == 0
    ensures n >= 1 ==> 1 <= a / LeadingUnit(n) <= 9
    ensures n >= 1 ==> NumDigits(a) == NumDigits(n)
  {
    var u := LeadingUnit(n);
    ApproxFacts(n, u);
    (n / u) * u
  }

  lemma ApproxFacts(n: nat, u: nat)
    requires u == LeadingUnit(n)
    ensures var a := (n / u) * u;
      && a <= n && n - a < u && a % u == 0
      && (n >= 1 ==> 1 <= a / u <= 9 && NumDigits(a) == NumDigits(n))
  {
    TruncateFacts(n, u);
    if n >= 1 {
      var a := (n / u) * u;
      DivBounds(n, u);
      MulLe(1, n / u, u);
      NumDigitsUnique(a, NumDigits(n));
    }
  }

  /** For u <= n < 10u the quotient n / u is a single non-zero digit. */
  lemma DivBounds(n: nat, u: nat)
    requires 1 <= u <= n < 10 * u
    ensures 1 <= n / u <= 9
  {
    var q := n / u;
    assert n == q * u + n % u;
    if q >= 10 {
      MulLe(10, q, u);
      assert false;
    }
    if q == 0 {
      assert false;
    }
  }

  /** The approximation is the greatest multiple of the leading unit that does not exceed n. */
  lemma ApproxIsGreatestMultiple(n: nat, m: nat)
    requires m <= n
    requires m % LeadingUnit(n) == 0
    ensures m <= ApproxVotes(n)
  {
    TruncateIsGreatest(n, LeadingUnit(n), m);
  }

  /** The approximation is exact exactly when everything below the leading digit is zero. */
  lemma ApproxExactIff(n: nat)
    ensures ApproxVotes(n) == n <==> n % LeadingUnit(n) == 0
  {
    if n % LeadingUnit(n) == 0 {
      ApproxIsGreatestMultiple(n, n);
    }
  }

  /** `getApproxHumanizedNumVotes`, with the approximation kept exact. */
  function HumanizeVotes(votes: Option<nat>): (r: string)
    ensures r == "" <==> votes.None? || votes.value == 0
    ensures r != "" ==> (r[|r| - 1] == '+' <==> votes.value > ApproxVotes(votes.value))
    ensures r != "" ==> r[0] != '-'
  {
    match votes
    case None => ""
    case Some(n) =>
      if n == 0 then ""
      else
        var a := ApproxVotes(n);
        LocaleText(a) + (if n > a then "+" else "")
  }

  /** The humanized text reads back, ignoring ',' and '+', as the approximation. */
  lemma HumanizeVotesReadsBack(n: nat)
    requires n >= 1
    ensures var d := StripMarks(HumanizeVotes(Some(n)));
      (forall i :: 0 <= i < |d| ==> IsDigit(d[i])) && DigitsValue(d) == ApproxVotes(n) <= n
  {
    var a := ApproxVotes(n);
    var mark: string := if n > a then "+" else "";
    assert HumanizeVotes(Some(n)) == Grouped(a) + mark;
    StripMarksAppend(Grouped(a), mark);
    assert StripMarks(mark) == "";
    assert StripMarks(Grouped(a) + mark) == StripMarks(Grouped(a));
    GroupedValue(a);
  }

  /** ECMAScript ToInt32, the conversion performed by `x | 0`. */
  function ToInt32(x: int): (r: int)
    ensures -0x8000_0000 <= r < 0x8000_0000
    ensures (r - x) % 0x1_0000_0000 == 0
    ensures -0x8000_0000 <= x < 0x8000_0000 ==> r == x
  {
    var m := x % 0x1_0000_0000;
    if m >= 0x8000_0000 then m - 0x1_0000_0000 else m
  }

  /** `getApproxHumanizedNumVotes` as written: the product is passed through `| 0`. */
  function HumanizeVotesAsWritten(votes: Option<nat>): (r: string)
    ensures r == "" <==> votes.None? || votes.value == 0
    ensures r != "" ==> (r[|r| - 1] == '+' <==> votes.value > ToInt32(ApproxVotes(votes.value)))
  {
    match votes
    case None => ""
    case Some(n) =>
      if n == 0 then ""
      else
        var a := ToInt32(ApproxVotes(n));
        LocaleText(a) + (if n > a then "+" else "")
  }

  /** Below 2^31 the `| 0` changes nothing, and the two definitions agree. */
  lemma AsWrittenAgreesBelowInt32(votes: Option<nat>)
    requires votes.Some? ==> votes.value < 0x8000_0000
    ensures HumanizeVotesAsWritten(votes) == HumanizeVotes(votes)
  {
  }

  /** A count of three billion renders as a negative number under `| 0`. */
  lemma AsWrittenWrapsAtThreeBillion()
    ensures HumanizeVotesAsWritten(Some(3_000_000_000)) == "-1,294,967,296+"
    ensures HumanizeVotes(Some(3_000_000_000)) == "3,000,000,000"
  {
    ThreeBillionIsExact();
    WrappedText();
    ThreeBillionGrouping();
    var a := ToInt32(ApproxVotes(3_000_000_000));
    assert a == -1_294_967_296;
    assert HumanizeVotesAsWritten(Some(3_000_000_000)) == LocaleText(a) + "+";
  }

  lemma ThreeBillionGrouping()
    ensures LocaleText(3_000_000_000) == "3,000,000,000"
  {
    assert Grouped(3) == "3";
    assert Pad3(0) == "000";
    assert Grouped(3_000) == "3,000";
    assert Grouped(3_000_000) == "3,000,000";
    assert Grouped(3_000_000_000) == "3,000,000,000";
  }

  lemma ThreeBillionIsExact()
    ensures ApproxVotes(3_000_000_000) == 3_000_000_000
  {
    assert NumDigits(3_000_000_000) == 10;
    assert Pow10(9) == 1_000_000_000;
  }

  lemma WrappedText()
    ensures ToInt32(3_000_000_000) == -1_294_967_296
    ensures LocaleText(-1_294_967_296) == "-1,294,967,296"
  {
    Int32OfThreeBillion();
    WrappedGrouping();
    NegativeLocaleText(-1_294_967_296);
  }

  /** A negative number is written as '-' and the grouping of its magnitude. */
  lemma NegativeLocaleText(i: int)
    requires i < 0
    ensures LocaleText(i) == "-" + Grouped(-i)
  {
  }

  lemma Int32OfThreeBillion()
    ensures ToInt32(3_000_000_000) == -1_294_967_296
  {
    assert 3_000_000_000 % 0x1_0000_0000 == 3_000_000_000;
  }

  lemma WrappedGrouping()
    ensures Grouped(1_294_967_296) == "1,294,967,296"
  {
    WrappedGroupingHigh();
    var g := Grouped(1_294_967);
    var p := Pad3(296);
    assert p == "296";
    assert Grouped(1_294_967_296) == g + "," + p;
  }

  lemma WrappedGroupingHigh()
    ensures Grouped(1_294_967) == "1,294,967"
  {
    var g := Grouped(1_294);
    assert g == "1,294" by {
      assert Pad3(294) == "294";
    }
    var p := Pad3(967);
    assert p == "967";
    assert Grouped(1_294_967) == g + "," + p;
  }

  /** The worked cases: 12,345 is cut to "10,000+"; 3,000 and 7 are exact and carry no '+'. */
  lemma HumanizeVotesExamples()
    ensures HumanizeVotes(Some(12_345)) == "10,000+"
    ensures HumanizeVotes(Some(3_000)) == "3,000"
    ensures HumanizeVotes(Some(7)) == "7"
    ensures HumanizeVotes(Some(0)) == "" && HumanizeVotes(None) == ""
  {
    ApproxExamples();
    ExampleGroupings();
  }

  lemma ExampleGroupings()
    ensures LocaleText(10_000) == "10,000"
    ensures LocaleText(3_000) == "3,000"
  {
    assert Pad3(0) == "000";
  }

  lemma ApproxExamples()
    ensures ApproxVotes(12_345) == 10_000
    ensures ApproxVotes(3_000) == 3_000
    ensures ApproxVotes(7) == 7
  {
    assert NumDigits(12_345) == 5 && Pow10(4) == 10_000;
    assert NumDigits(3_000) == 4 && Pow10(3) == 1_000;
  }
}

=== FILE: wrappers.dfy ===
/** The source's nullable values (`number | null`, `string[] | null`). */
module Wrappers {

  datatype Option<+T> = None | Some(value: T) {

    /** Returns the value held in Some, or the default for None. */
    function GetOr(default: T): T {
      match this
      case Some(v) => v
      case None => default
    }
  }
}
